=== FILE: README.md ===
# Student loan counselor: memory stores and reply formatting

The counselor keeps three collections in a vector store: past conversations,
a lender catalog and past loan recommendations. Embedding, storage and
nearest-neighbour ranking all belong to the vector library. What the
repository itself decides is how records are shaped on the way in and out:

- `ConversationStore.store_conversation` normalises caller metadata, stamps it
  with the user id and keeps only scalar values, as strings;
  `find_similar_conversations` turns each search hit into a
  `{"text", "metadata"}` dict.
- `LenderStore.index_lenders` turns each lender dict into a search text and
  six string metadata fields, then stores the whole batch with one call.
  Reading a missing field raises before anything is stored.
  `search_lenders` returns the library's result as it is.
- `LoanRecommendationStore.store_recommendation` stores
  `Student: <details as JSON>\nRecommendation: <text>` with `metadata or {}`.
  `find_similar_recommendations` searches with the same JSON.
- `formatResponse` in the chat page turns the reply into HTML. Bold and italic
  markers and `## ` headings become tags; the `^### ` rule is also applied
  but never changes anything (see below). Paragraphs are split at each
  `\n\n`; a line holding only white space does not separate paragraphs. A paragraph containing a newline followed by `-` becomes a `<p>`
  holding its first line, then a `<ul>` list of its later non-blank lines; a
  `-` on the first line alone does not make a list, so `- a` renders as
  `<p>- a</p>`. Any other paragraph becomes a `<p>` with `<br>` for each
  newline.

The model is functional. Python values are the datatype `PyValue.Value`.
A vector collection is an append-only log of `(text, metadata)` entries
(`VectorLog`). `add_texts` appends to that log. Three foreign functions are
parameters the model does not interpret: `similarity_search`, `json.loads`
and `json.dumps`. JavaScript regular-expression replacements are written out
as recursive functions. They follow ECMAScript's rules for `.`, `\s` and
`trim()`.

One consequence of the source's rule order is proved rather than assumed.
The `^### ` rule never changes anything (`ResponseFormat.H3NeverFires`). The
unanchored `## ` rule runs first and has already rewritten the `## ` inside
any leading `### `. The markup step therefore turns a reply starting with
`### Title` into `#<h2>Title</h2>`, and `formatResponse` returns
`<p>#<h2>Title</h2></p>` for it.

Modules: `Outcomes` (Option, Result), `Text` (prefix, substring, split, join),
`PyValue`, `VectorLog`, `ConversationStore`, `LenderStore`,
`LoanRecommendations`, `ResponseFormat`.

## Model

| member | source | states |
|---|---|---|
| `ConversationStore.Normalise` | vector_store/conversation_store.py:44-57 | a dict is used as it is; text that parses to a JSON object is used as that object; `None`, text that fails to parse or parses to a non-object, and any other non-dict become `{}` |
| `ConversationStore.SanitiseMetadata` | vector_store/conversation_store.py:44-69 | stored keys are a subset of the normalised metadata's keys plus `user_id`; `user_id` is present exactly when the caller's user id is a scalar, and then maps to its `str()`, overriding any `user_id` in the metadata; a str user id is stored as is |
| `ConversationStore.NonDictMetadataKeepsOnlyUserId` | vector_store/conversation_store.py:44-63 | metadata that is `None`, text that fails to parse or parses to a non-object, or any other non-dict, is stored as exactly `{"user_id": user_id}` |
| `ConversationStore.ParsedMetadataIsUsed` | vector_store/conversation_store.py:48-53 | text metadata that parses to a JSON object is treated exactly as that object |
| `ConversationStore.KeepScalars` | vector_store/conversation_store.py:65-69 | keys with str/int/float/bool values are kept with their `str()`; keys with list, dict or `None` values are dropped, not stringified |
| `ConversationStore.OtherKeysFiltered` | vector_store/conversation_store.py:59-69 | a key other than `user_id` is stored if and only if the dict holds it with a scalar value; its stored value is the `str()` of that value, and a str value is unchanged |
| `ConversationStore.NonScalarUserIdDropped` | vector_store/conversation_store.py:60-69 | a user id that is not a scalar leaves no `user_id` key at all, even when the metadata carried one |
| `ConversationStore.SanitiseIdempotent` | vector_store/conversation_store.py:66-69 | sanitising already-stored metadata again, with the same user id, returns it unchanged |
| `ConversationStore.StoreConversation` | vector_store/conversation_store.py:71-74 | exactly one entry is appended, holding the conversation text and the sanitised metadata; earlier entries are unchanged |
| `ConversationStore.StoreKeepsTagged` | vector_store/conversation_store.py:60-74 | if every stored conversation has a `user_id`, it still holds after storing one with a scalar user id |
| `ConversationStore.FindSimilarConversations` | vector_store/conversation_store.py:76-89 | one dict per search result, in the search's order, with exactly the keys `text` and `metadata` carrying that document's text and metadata; `n_results` defaults to 3 |
| `ConversationStore.FoundConversationsAreTagged` | vector_store/conversation_store.py:87-89 | when the log is tagged and the search returns stored documents, every result's metadata has a `user_id` |
| `PyValue.IsScalar` | vector_store/conversation_store.py:68 | only `None`, lists and dicts fail the `isinstance(v, (str, int, float, bool))` test |
| `PyValue.NatToDecimal` | vector_store/conversation_store.py:67 | the decimal text of a natural number is all digits, and starts with `0` exactly when the number is zero |
| `PyValue.IntToDecimal` | vector_store/conversation_store.py:67 | `str()` of an int has a minus sign exactly for a negative int, then at least one digit, with a leading `0` only for zero, whose text is exactly `"0"` (no `-0`, no leading zeros) |
| `PyValue.ScalarStr` | vector_store/conversation_store.py:67 | `str()` of a scalar: a str is itself, an int is its canonical decimal text and reads back as the same int, a float is its own text, a bool is `True`/`False` |
| `PyValue.IntDecimalRoundTrip` | vector_store/conversation_store.py:67 | the decimal text `str()` gives for an int parses back to that int |
| `PyValue.PyStr` | vector_store/lender_store.py:45-52 | `str()` of any value agrees with the scalar rendering and gives `None` for None |
| `PyValue.JoinStrings` | vector_store/lender_store.py:53 | `sep.join` succeeds exactly for a str or a list of strs; an empty list gives `""`, a one-element list gives its element, a str of at most one character gives itself |
| `PyValue.JoinStringsSeparates` | vector_store/lender_store.py:53 | for two or more items the join is the first item, the separator, then the join of the rest; a str is joined character by character, so `", ".join("ab")` is `"a, b"` |
| `PyValue.Truthy` | vector_store/loan_recommendations.py:36 | a value is falsy exactly when it is one of the eight values None, False, 0, 0.0, -0.0, `""`, `[]`, `{}` |
| `LenderStore.Lookup` | vector_store/lender_store.py:45-53 | `lender[key]` yields the value when a dict has the key, KeyError(key) when a dict lacks it, TypeError for a non-dict |
| `LenderStore.SearchText` | vector_store/lender_store.py:45 | the search text starts with `str(name) str(about) Interest: ` and ends with `str(interest_rate)` |
| `LenderStore.LenderRecord` | vector_store/lender_store.py:44-54 | a lender yields a record exactly when it is a dict with all seven keys and joinable key points; otherwise the error is TypeError for a non-dict, KeyError for the first missing key in reading order, or TypeError for a complete lender whose key points cannot be joined; a record's metadata has exactly the six keys |
| `LenderStore.LenderRecordFields` | vector_store/lender_store.py:45-54 | the text is `name about Interest: rate` built from `str()` of the fields; five metadata fields are `str()` of the lender's values and `key_points` is the ", "-join |
| `LenderStore.KeyPointsJoin` | vector_store/lender_store.py:53 | an empty key-point list is stored as `""`, a single key point as itself |
| `LenderStore.KeyPointsRoundTrip` | vector_store/lender_store.py:53 | key points given as strings none of which contains `", "` are stored as a text that splits at `", "` back into exactly those strings |
| `LenderStore.IndexLenders` | vector_store/lender_store.py:41-58 | succeeds iff every lender yields a record; on success all records are appended in input order in one batch; on failure the error is the first failing lender's and the log is unchanged; the six-key catalog invariant is preserved |
| `LenderStore.SearchLenders` | vector_store/lender_store.py:60-73 | the search result is returned unchanged; `n_results` defaults to 5 |
| `VectorLog.AddTexts` | vector_store/lender_store.py:58 | `add_texts` appends one entry per text, index-aligned with the metadatas, leaving earlier entries unchanged |
| `VectorLog.AddTextsInBatches` | vector_store/lender_store.py:58 | adding a batch in one call stores the same log as adding its two halves in sequence |
| `LoanRecommendations.RecommendationText` | vector_store/loan_recommendations.py:33 | the stored text starts with `Student: <json>\nRecommendation: ` and ends with the recommendation |
| `LoanRecommendations.RecommendationTextRoundTrip` | vector_store/loan_recommendations.py:33 | when the JSON has no newline, the stored text `Student: <json>\nRecommendation: <rec>` parses back to exactly that JSON and recommendation |
| `LoanRecommendations.ParseRecommendationText` | vector_store/loan_recommendations.py:33 | a parsed text is exactly the labelled concatenation of its two parts, and the JSON part has no newline |
| `LoanRecommendations.StoredMetadata` | vector_store/loan_recommendations.py:36 | truthy metadata is stored unchanged; falsy metadata is stored as `{}` |
| `LoanRecommendations.StoredEmptyExactlyWhenFalsy` | vector_store/loan_recommendations.py:36 | the stored metadata is `{}` exactly when the caller's metadata is one of the eight falsy values |
| `LoanRecommendations.StoreRecommendation` | vector_store/loan_recommendations.py:33-37 | exactly one entry is appended, with the labelled text and the defaulted metadata; earlier entries are unchanged |
| `LoanRecommendations.FindSimilarRecommendations` | vector_store/loan_recommendations.py:39-54 | the search is made with `dumps(details)` and its result returned unchanged; `n_results` defaults to 3 |
| `LoanRecommendations.QueryOccursInStoredText` | vector_store/loan_recommendations.py:33-49 | the query for some details is a substring of the text stored for a recommendation made for the same details |
| `Text.Split` | src/app/page.js:92 | splitting always yields at least one piece, and the first piece is a prefix of the text |
| `Text.SplitCutsAtFirstOccurrence` | src/app/page.js:92 | the first piece runs up to the leftmost occurrence of the separator and none starts inside it; the other pieces are the split of the text after that occurrence; a single piece is the whole text |
| `Text.SplitAt` | src/app/page.js:92 | conversely, when the leftmost occurrence starts at `i`, the split is the text before `i` followed by the split of the text after the occurrence |
| `Text.SplitAbsent` | src/app/page.js:92 | a text without the separator is a single piece |
| `Text.JoinSplit` | src/app/page.js:92 | the pieces of a split, joined with the separator, give back the text |
| `Text.SplitPiecesAvoidSeparator` | src/app/page.js:92 | no piece of a split contains the separator |
| `Text.SplitJoin` | vector_store/lender_store.py:53 | for a two-character separator with distinct characters, such as `", "`, splitting the join of pieces that do not contain it gives the pieces back |
| `Text.ReplaceCharIsSplitJoin` | src/app/page.js:102 | replacing every newline by `<br>` equals splitting at newlines and joining with `<br>` |
| `Text.ReplaceCharRemoves` | src/app/page.js:102 | after the replacement no newline remains |
| `ResponseFormat.FindClose` | src/app/page.js:87-88 | the lazy group ends where the closing delimiter starts, with no line terminator before it |
| `ResponseFormat.FindCloseShortest` | src/app/page.js:87-88 | the match is the shortest: no delimiter starts earlier; when there is no match, every later delimiter has a line terminator before it |
| `ResponseFormat.ReplacePaired` | src/app/page.js:87-88 | text without the delimiter is unchanged by the bold or italic step |
| `ResponseFormat.Bold` | src/app/page.js:87 | text containing no `**` is unchanged by the bold step |
| `ResponseFormat.Italic` | src/app/page.js:88 | text containing no `__` is unchanged by the italic step |
| `ResponseFormat.ReplacePairedPrefix` | src/app/page.js:87-88 | text that holds no doubled delimiter character passes through the bold or italic step unchanged, up to where a delimiter begins |
| `ResponseFormat.ReplacePairedPair` | src/app/page.js:87-88 | after a prefix that cannot open a pair, `**x**` (x newline-free, no stray `*`) becomes one element and the rest is processed on its own |
| `ResponseFormat.BoldPair` | src/app/page.js:87 | `**x**`, with x newline-free and shortest-match, becomes `<strong>x</strong>` |
| `ResponseFormat.LineEnd` | src/app/page.js:89-90 | the greedy `(.*)` runs to the first line terminator or the end of the text |
| `ResponseFormat.ReplaceH2` | src/app/page.js:89 | text containing no `## ` is unchanged by the `## ` step |
| `ResponseFormat.H2Line` | src/app/page.js:89 | `## x`, where `x` runs to the end of its line, becomes `<h2>x</h2>`, and the text after the line is processed on its own |
| `ResponseFormat.ReplaceH3` | src/app/page.js:90 | text not starting with `### ` is unchanged; otherwise the result starts with `<h3>` and ends with everything after the first line |
| `ResponseFormat.NoLeadingH2` | src/app/page.js:89 | after the `## ` step the text never starts with `## ` |
| `ResponseFormat.H3NeverFires` | src/app/page.js:89-90 | the `^### ` step leaves the output of the `## ` step unchanged |
| `ResponseFormat.Markup` | src/app/page.js:86-90 | text with no `**`, no `__` and no `## ` passes all four replacements unchanged |
| `ResponseFormat.StripBullet` | src/app/page.js:98 | a line starting with `-` loses that `-` and the white space after it, and the item does not start with white space; any other line is kept verbatim |
| `ResponseFormat.ListItems` | src/app/page.js:96-99 | there is at most one item per line, and no item holds a newline when no line does |
| `ResponseFormat.ListItemsAppend` | src/app/page.js:96-99 | lines become items one at a time, in order |
| `ResponseFormat.ListItemsCount` | src/app/page.js:96-99 | the number of items equals the number of lines that are not whitespace-only |
| `ResponseFormat.ListParagraph` | src/app/page.js:94-100 | a paragraph containing `\n-` renders as a list whose intro is the text before the first newline, with one item per later non-blank line |
| `ResponseFormat.ToBlock` | src/app/page.js:94-103 | a paragraph becomes a list exactly when it contains `\n-`; a plain body holds no newline, and neither do a list's intro and items |
| `ResponseFormat.PlainParagraph` | src/app/page.js:101-103 | any other paragraph renders as plain text with no newline left, equal to its lines joined with `<br>`, and unchanged when it had no newline |
| `ResponseFormat.ItemsHtml` | src/app/page.js:97-99 | the `<li>` elements hold no newline when the items hold none |
| `ResponseFormat.Html` | src/app/page.js:100-102 | every rendered block starts with `<p>`, and holds no newline when its texts hold none |
| `ResponseFormat.RenderParagraphs` | src/app/page.js:93-104 | the rendering of one or more paragraphs starts with `<p>`, and no rendering contains a newline |
| `ResponseFormat.RenderParagraphsIsConcat` | src/app/page.js:93-104 | rendering a sequence of paragraphs concatenates one block per paragraph, in order |
| `ResponseFormat.ParagraphStructure` | src/app/page.js:86-104 | the paragraphs rejoined with `\n\n` give the marked-up text, none contains `\n\n`, and the reply is their blocks concatenated in order |
| `ResponseFormat.FormatResponse` | src/app/page.js:84-105 | the reply always starts with `<p>` and contains no `\n`: every `\n` of the text has become `<br>`, a paragraph boundary or a list boundary; `\r`, U+2028 and U+2029 never become `<br>`: they survive in plain paragraphs, while in a list a line made only of white space is dropped and any of them directly after the leading `-` is stripped |

## Left out

- Embeddings, Chroma persistence, collection names and persistence directories: these belong to the vector library and the embedding service. Each collection is an abstract log.
- Ranking in `similarity_search`: the search is an uninterpreted parameter. No distance, `k` bound or tie-break is assumed. The lemmas that need the search to return stored documents take that as a hypothesis.
- `json.loads` and `json.dumps`: both are parameters. A JSONDecodeError is `None`. The recommendation round trip takes "the JSON has no raw newline" as a hypothesis. That is true of `json.dumps` with default arguments.
- `str()` of floats, lists and dicts: a float carries its own `str()` text, and list and dict text comes from a `containerStr` parameter. Float truthiness treats the texts `0.0` and `-0.0` as the zero floats.
- Dicts with non-string keys, and dict key order: `Value.Dict` is an unordered map with string keys, so `{**metadata, 'user_id': ...}` key order is not modelled.
- LenderStore.LenderRecord: key points given as a dict are modelled as TypeError. Python would instead join the dict's keys in insertion order, which an unordered map does not keep.
- LenderStore.IndexLenders: an empty lender list is modelled as appending nothing. What the library does with an empty `add_texts` call is not modelled.
- PyValue.ScalarStr: CPython 3.11 and later refuse to convert an int of more than 4300 digits to or from decimal text, raising ValueError. `str(v)` at vector_store/conversation_store.py:67 and vector_store/lender_store.py:48-52, and the f-string at vector_store/lender_store.py:45, would raise it; the model returns the decimal text of every int. For the same reason, `json.loads` raises a plain ValueError, not JSONDecodeError, on such a number. The `except` at vector_store/conversation_store.py:52 does not catch it, so `store_conversation` fails. `Loads` has no way to say this: its `None` always becomes `{}`.
- `conversation` and `recommendation` are taken as strings. A non-str recommendation would be formatted with `str()` inside the f-string.
- ResponseFormat: JavaScript strings are UTF-16. The model works on Unicode scalar values, which gives the same results for these replacements because no surrogate is a line terminator or white space.
- The rest of src/app/page.js (React components, state, fetch calls, speech APIs, HTML injection), streamlit_app.py and wsgi.py: user interface, audio and HTTP plumbing with no logic of the stores.

=== FILE: conversation_store.dfy ===
/** `ConversationStore` of vector_store/conversation_store.py: conversation
    snippets stored with sanitised metadata, and retrieval of similar ones.
    `json.loads` and the library's similarity search are parameters. */
module ConversationStore {
  import opened Outcomes
  import opened PyValue
  import opened VectorLog

  /** Metadata as stored: every value is a string. */
  type Metadata = map<string, string>

  const UserIdKey: string := "user_id"

  /** `n_results` when the caller gives none. */
  const DefaultResults: nat := 3

  /** `json.loads`: `None` when the text raises JSONDecodeError. */
  type Loads = string -> Option<Value>

  /** Caller metadata brought to a dict: `None`, text that does not parse to
      a JSON object, and any other non-dict become the empty dict. */
  function Normalise(metadata: Value, loads: Loads): (r: map<string, Value>)
    ensures metadata.Dict? ==> r == metadata.entries
    ensures metadata.Str? && loads(metadata.s).Some? && loads(metadata.s).value.Dict? ==>
      r == loads(metadata.s).value.entries
    ensures NotADict(metadata, loads) ==> r == map[]
  {
    match metadata
    case Dict(m) => m
    case Str(s) =>
      (match loads(s)
       case Some(Dict(m)) => m
       case _ => map[])
    case _ => map[]
  }

  /** Keeps the keys whose values are str, int, float or bool, each value
      turned into its `str()`; keys holding lists, dicts or `None` are
      dropped. */
  function KeepScalars(m: map<string, Value>): (r: Metadata)
    ensures r.Keys <= m.Keys
    ensures forall k :: k in m && !IsScalar(m[k]) ==> k !in r
    ensures forall k :: k in m && IsScalar(m[k]) ==> k in r && r[k] == ScalarStr(m[k])
  {
    map k | k in m && IsScalar(m[k]) :: ScalarStr(m[k])
  }

  /** The metadata `store_conversation` hands to the vector store. */
  function SanitiseMetadata(userId: Value, metadata: Value, loads: Loads): (r: Metadata)
    ensures r.Keys <= Normalise(metadata, loads).Keys + {UserIdKey}
    ensures UserIdKey in r <==> IsScalar(userId)
    ensures IsScalar(userId) ==> r[UserIdKey] == ScalarStr(userId)
    ensures userId.Str? ==> r[UserIdKey] == userId.s
  {
    KeepScalars(Normalise(metadata, loads)[UserIdKey := userId])
  }

  /** Metadata that is `None`, text that fails to parse or parses to
      something other than an object, or any other non-dict. */
  predicate NotADict(metadata: Value, loads: Loads) {
    || metadata.Null?
    || (metadata.Str? && (loads(metadata.s).None? || !loads(metadata.s).value.Dict?))
    || (!metadata.Str? && !metadata.Dict?)
  }

  /** Without usable metadata, only the caller's user id is stored. */
  lemma NonDictMetadataKeepsOnlyUserId(userId: string, metadata: Value, loads: Loads)
    requires NotADict(metadata, loads)
    ensures SanitiseMetadata(Str(userId), metadata, loads) == map[UserIdKey := userId]
  {
    assert Normalise(metadata, loads) == map[];
  }

  /** Text metadata that parses to an object is treated as that object. */
  lemma ParsedMetadataIsUsed(userId: Value, text: string, m: map<string, Value>, loads: Loads)
    requires loads(text) == Some(Dict(m))
    ensures SanitiseMetadata(userId, Str(text), loads) == SanitiseMetadata(userId, Dict(m), loads)
  {
  }

  /** Any other key of a dict is kept, as its `str()`, exactly when its value
      is a str, int, float or bool; a str value is kept unchanged. */
  lemma OtherKeysFiltered(userId: Value, m: map<string, Value>, loads: Loads, k: string)
    requires k != UserIdKey
    ensures var r := SanitiseMetadata(userId, Dict(m), loads);
      && (k in r <==> k in m && IsScalar(m[k]))
      && (k in r ==> r[k] == ScalarStr(m[k]))
      && (k in m && m[k].Str? ==> r[k] == m[k].s)
  {
    var withId := m[UserIdKey := userId];
    assert k in withId <==> k in m;
    assert k in m ==> withId[k] == m[k];
  }

  /** A user id that is not a scalar is dropped, and takes any `user_id`
      the metadata carried with it. */
  lemma NonScalarUserIdDropped(userId: Value, metadata: Value, loads: Loads)
    requires !IsScalar(userId)
    ensures UserIdKey !in SanitiseMetadata(userId, metadata, loads)
  {
  }

  /** Stored metadata read back as a dict of strings. */
  function AsValues(m: Metadata): (r: map<string, Value>)
    ensures r.Keys == m.Keys
    ensures forall k :: k in m ==> r[k] == Str(m[k])
  {
    map k | k in m :: Str(m[k])
  }

  /** Filtering is idempotent: sanitising stored metadata again, with the
      same user id, gives it back unchanged. */
  lemma SanitiseIdempotent(userId: string, metadata: Value, loads: Loads)
    ensures var r := SanitiseMetadata(Str(userId), metadata, loads);
      SanitiseMetadata(Str(userId), Dict(AsValues(r)), loads) == r
  {
    var r := SanitiseMetadata(Str(userId), metadata, loads);
    var again := SanitiseMetadata(Str(userId), Dict(AsValues(r)), loads);
    assert again.Keys == r.Keys by {
      forall k | k in again ensures k in r {
        if k != UserIdKey {
          OtherKeysFiltered(Str(userId), AsValues(r), loads, k);
        }
      }
      forall k | k in r ensures k in again {
        if k != UserIdKey {
          OtherKeysFiltered(Str(userId), AsValues(r), loads, k);
        }
      }
    }
    forall k | k in r ensures again[k] == r[k] {
      if k != UserIdKey {
        OtherKeysFiltered(Str(userId), AsValues(r), loads, k);
      }
    }
  }

  /** `store_conversation`: one entry is appended, holding the conversation
      text and the sanitised metadata; earlier entries are untouched. */
  function StoreConversation(log: Log<Metadata>, userId: Value, conversation: string,
                             metadata: Value, loads: Loads): (r: Log<Metadata>)
    ensures |r| == |log| + 1
    ensures r[..|log|] == log
    ensures r[|log|].text == conversation
    ensures r[|log|].metadata == SanitiseMetadata(userId, metadata, loads)
  {
    AddTexts(log, [conversation], [SanitiseMetadata(userId, metadata, loads)])
  }

  /** Every stored conversation is tagged with a user id. */
  predicate Tagged(log: Log<Metadata>) {
    forall i :: 0 <= i < |log| ==> UserIdKey in log[i].metadata
  }

  /** Storing with a scalar user id keeps every conversation tagged. */
  lemma StoreKeepsTagged(log: Log<Metadata>, userId: Value, conversation: string,
                         metadata: Value, loads: Loads)
    requires Tagged(log) && IsScalar(userId)
    ensures Tagged(StoreConversation(log, userId, conversation, metadata, loads))
  {
    var r := StoreConversation(log, userId, conversation, metadata, loads);
    forall i | 0 <= i < |r| ensures UserIdKey in r[i].metadata {
      if i < |log| {
        assert r[i] == r[..|log|][i];
      }
    }
  }

  /** The dict `{"text": ..., "metadata": ...}` returned for one document. */
  function HitValue(doc: Entry<Metadata>): Value {
    Dict(map["text" := Str(doc.text), "metadata" := Dict(AsValues(doc.metadata))])
  }

  /** `find_similar_conversations`: one dict per search result, in the
      library's order, carrying its text and metadata. */
  function FindSimilarConversations(log: Log<Metadata>, query: string, search: Search<Metadata>,
                                    nResults: nat := DefaultResults): (r: seq<Value>)
    ensures |r| == |search(log, query, nResults)|
    ensures forall i :: 0 <= i < |r| ==>
      && r[i].Dict?
      && r[i].entries.Keys == {"text", "metadata"}
      && r[i].entries["text"] == Str(search(log, query, nResults)[i].text)
      && r[i].entries["metadata"] == Dict(AsValues(search(log, query, nResults)[i].metadata))
  {
    var docs := search(log, query, nResults);
    seq(|docs|, i requires 0 <= i < |docs| => HitValue(docs[i]))
  }

  /** When every conversation is tagged and the search returns stored
      documents, every result's metadata names a user. */
  lemma FoundConversationsAreTagged(log: Log<Metadata>, query: string, nResults: nat,
                                    search: Search<Metadata>)
    requires Tagged(log)
    requires DrawnFrom(search(log, query, nResults), log)
    ensures forall i :: 0 <= i < |FindSimilarConversations(log, query, search, nResults)| ==>
      UserIdKey in FindSimilarConversations(log, query, search, nResults)[i].entries["metadata"].entries
  {
    var docs := search(log, query, nResults);
    var r := FindSimilarConversations(log, query, search, nResults);
    forall i | 0 <= i < |r|
      ensures UserIdKey in r[i].entries["metadata"].entries
    {
      assert docs[i] in log;
      var j :| 0 <= j < |log| && log[j] == docs[i];
      assert UserIdKey in log[j].metadata;
    }
  }
}

=== FILE: lender_store.dfy ===
/** `LenderStore` of vector_store/lender_store.py: a catalog of lenders
    indexed as search text plus six string-valued metadata fields, and a
    search that returns the library's result unchanged. */
module LenderStore {
  import opened Outcomes
  import opened PyValue
  import opened VectorLog
  import Text

  type Metadata = map<string, string>

  /** The keys `index_lenders` reads from each lender, in the order it
      reads them: first for the search text, then for the metadata. */
  const LookupOrder: seq<string> :=
    ["name", "about", "interest_rate", "maximum_amount", "currency", "country", "key_points"]

  /** The keys of every stored lender's metadata. */
  const MetadataKeys: set<string> :=
    {"name", "interest_rate", "maximum_amount", "currency", "country", "key_points"}

  const KeyPointsSeparator: string := ", "

  /** `n_results` when the caller gives none. */
  const DefaultResults: nat := 5

  /** `lender[key]`: the value under `key` of a dict; KeyError when the dict
      lacks it; TypeError when the lender is not a dict. */
  function Lookup(lender: Value, key: string): (r: Result<Value, PyError>)
    ensures r.Ok? <==> lender.Dict? && key in lender.entries
    ensures r.Ok? ==> r.value == lender.entries[key]
    ensures r.Err? ==> r.error == (if lender.Dict? then KeyError(key) else TypeError)
  {
    match lender
    case Dict(m) => if key in m then Ok(m[key]) else Err(KeyError(key))
    case _ => Err(TypeError)
  }

  /** `f"{name} {about} Interest: {interest_rate}"`. */
  function SearchText(name: Value, about: Value, rate: Value, containerStr: Value -> string): (r: string)
    ensures Text.StartsWith(r, PyStr(name, containerStr) + " " + PyStr(about, containerStr) + " Interest: ")
    ensures Text.EndsWith(r, PyStr(rate, containerStr))
  {
    PyStr(name, containerStr) + " " + PyStr(about, containerStr) + " Interest: " + PyStr(rate, containerStr)
  }

  /** A lender that has every key `index_lenders` reads. */
  predicate Complete(lender: Value) {
    && lender.Dict?
    && "name" in lender.entries && "about" in lender.entries
    && "interest_rate" in lender.entries && "maximum_amount" in lender.entries
    && "currency" in lender.entries && "country" in lender.entries
    && "key_points" in lender.entries
  }

  /** Index of the first of `keys` missing from `m`, if any. */
  function FirstMissing(m: map<string, Value>, keys: seq<string>): (r: Option<nat>)
    ensures r.Some? ==> r.value < |keys| && keys[r.value] !in m
    ensures r.Some? ==> forall j :: 0 <= j < r.value ==> keys[j] in m
    ensures r.None? ==> forall j :: 0 <= j < |keys| ==> keys[j] in m
    decreases |keys|
  {
    if |keys| == 0 then None
    else if keys[0] !in m then Some(0)
    else match FirstMissing(m, keys[1..])
      case None => None
      case Some(i) => Some(i + 1)
  }

  /** The text and metadata one lender contributes, or the exception reading
      it raises: TypeError for a non-dict, KeyError for the first missing key
      in reading order, TypeError for key points that are not strings. */
  function LenderRecord(lender: Value, containerStr: Value -> string): (r: Result<Entry<Metadata>, PyError>)
    ensures r.Ok? <==> Complete(lender) && JoinStrings(KeyPointsSeparator, lender.entries["key_points"]).Ok?
    ensures !lender.Dict? ==> r == Err(TypeError)
    ensures lender.Dict? && FirstMissing(lender.entries, LookupOrder).Some? ==>
      r == Err(KeyError(LookupOrder[FirstMissing(lender.entries, LookupOrder).value]))
    ensures Complete(lender) && JoinStrings(KeyPointsSeparator, lender.entries["key_points"]).Err? ==>
      r == Err(TypeError)
    ensures r.Ok? ==> r.value.metadata.Keys == MetadataKeys
  {
    var name :- Lookup(lender, "name");
    var about :- Lookup(lender, "about");
    var rate :- Lookup(lender, "interest_rate");
    var text := SearchText(name, about, rate, containerStr);
    var maximum :- Lookup(lender, "maximum_amount");
    var currency :- Lookup(lender, "currency");
    var country :- Lookup(lender, "country");
    var points :- Lookup(lender, "key_points");
    var keyPoints :- JoinStrings(KeyPointsSeparator, points);
    Ok(Entry(text, map[
      "name" := PyStr(name, containerStr),
      "interest_rate" := PyStr(rate, containerStr),
      "maximum_amount" := PyStr(maximum, containerStr),
      "currency" := PyStr(currency, containerStr),
      "country" := PyStr(country, containerStr),
      "key_points" := keyPoints]))
  }

  /** A stored lender's text is `name about Interest: rate`, and each
      metadata field is the `str()` of the lender's field, except key points,
      which are joined with ", ". */
  lemma LenderRecordFields(lender: Value, containerStr: Value -> string)
    requires LenderRecord(lender, containerStr).Ok?
    ensures var e := LenderRecord(lender, containerStr).value; var m := lender.entries;
      && e.text == PyStr(m["name"], containerStr) + " " + PyStr(m["about"], containerStr)
                   + " Interest: " + PyStr(m["interest_rate"], containerStr)
      && e.metadata["name"] == PyStr(m["name"], containerStr)
      && e.metadata["interest_rate"] == PyStr(m["interest_rate"], containerStr)
      && e.metadata["maximum_amount"] == PyStr(m["maximum_amount"], containerStr)
      && e.metadata["currency"] == PyStr(m["currency"], containerStr)
      && e.metadata["country"] == PyStr(m["country"], containerStr)
      && Ok(e.metadata["key_points"]) == JoinStrings(KeyPointsSeparator, m["key_points"])
  {
  }

  /** Key points given as an empty list are stored as the empty string, and
      a single key point as itself. */
  lemma KeyPointsJoin(lender: Value, containerStr: Value -> string, point: string)
    requires LenderRecord(lender, containerStr).Ok?
    ensures lender.entries["key_points"] == List([]) ==>
      LenderRecord(lender, containerStr).value.metadata["key_points"] == ""
    ensures lender.entries["key_points"] == List([Str(point)]) ==>
      LenderRecord(lender, containerStr).value.metadata["key_points"] == point
  {
    LenderRecordFields(lender, containerStr);
  }

  /** Key points given as a list of strings none of which contains ", "
      are stored as a text that splits at ", " back into those strings. */
  lemma KeyPointsRoundTrip(points: seq<string>)
    requires |points| >= 1
    requires forall k :: 0 <= k < |points| ==> !Text.Contains(points[k], KeyPointsSeparator)
    ensures var stored := JoinStrings(KeyPointsSeparator, List(seq(|points|, k requires 0 <= k < |points| => Str(points[k]))));
      stored.Ok? && Text.Split(stored.value, KeyPointsSeparator) == points
  {
    var items := seq(|points|, k requires 0 <= k < |points| => Str(points[k]));
    assert seq(|items|, k requires 0 <= k < |items| => items[k].s) == points;
    Text.SplitJoin(points, KeyPointsSeparator);
  }

  /** Every stored lender has exactly the six metadata keys. */
  predicate WellFormedCatalog(log: Log<Metadata>) {
    forall i :: 0 <= i < |log| ==> log[i].metadata.Keys == MetadataKeys
  }

  /** `index_lenders`: builds a text and a metadata map per lender, in input
      order, then stores them all with one `add_texts`. If reading any
      lender raises, the exception is that of the first such lender and
      nothing from the batch is stored. */
  method IndexLenders(log: Log<Metadata>, lenders: seq<Value>, containerStr: Value -> string)
    returns (after: Log<Metadata>, raised: Option<PyError>)
    ensures raised.None? <==> forall i :: 0 <= i < |lenders| ==> LenderRecord(lenders[i], containerStr).Ok?
    ensures raised.Some? ==> after == log
    ensures raised.Some? ==>
      (exists i :: 0 <= i < |lenders| && LenderRecord(lenders[i], containerStr) == Err(raised.value) &&
         forall j :: 0 <= j < i ==> LenderRecord(lenders[j], containerStr).Ok?)
    ensures raised.None? ==> |after| == |log| + |lenders| && after[..|log|] == log
    ensures raised.None? ==> forall i :: 0 <= i < |lenders| ==>
      after[|log| + i] == LenderRecord(lenders[i], containerStr).value
    ensures WellFormedCatalog(log) ==> WellFormedCatalog(after)
  {
    var texts: seq<string> := [];
    var metadatas: seq<Metadata> := [];
    for i := 0 to |lenders|
      invariant |texts| == i && |metadatas| == i
      invariant forall j :: 0 <= j < i ==> LenderRecord(lenders[j], containerStr) == Ok(Entry(texts[j], metadatas[j]))
      invariant forall j :: 0 <= j < i ==> metadatas[j].Keys == MetadataKeys
    {
      var record := LenderRecord(lenders[i], containerStr);
      if record.Err? {
        return log, Some(record.error);
      }
      texts := texts + [record.value.text];
      metadatas := metadatas + [record.value.metadata];
    }
    after := AddTexts(log, texts, metadatas);
    raised := None;
    if WellFormedCatalog(log) {
      forall i | 0 <= i < |after| ensures after[i].metadata.Keys == MetadataKeys {
        if i < |log| {
          assert after[i] == after[..|log|][i];
        } else {
          assert after[i] == Entry(texts[i - |log|], metadatas[i - |log|]);
        }
      }
    }
  }

  /** `search_lenders`: the library's search result, returned as is. */
  function SearchLenders(log: Log<Metadata>, query: string, search: Search<Metadata>,
                         nResults: nat := DefaultResults): (r: seq<Entry<Metadata>>)
    ensures r == search(log, query, nResults)
  {
    search(log, query, nResults)
  }
}

=== FILE: loan_recommendations.dfy ===
/** `LoanRecommendationStore` of vector_store/loan_recommendations.py: past
    recommendations stored as "Student: <details as JSON>\nRecommendation:
    <text>" and retrieved by searching with the student's details as JSON.
    `json.dumps` and the library's similarity search are parameters. */
module LoanRecommendations {
  import opened Outcomes
  import opened PyValue
  import opened VectorLog
  import Text

  /** `json.dumps`. */
  type Dumps = Value -> string

  const StudentLabel: string := "Student: "
  const RecommendationLabel: string := "\nRecommendation: "

  /** `n_results` when the caller gives none. */
  const DefaultResults: nat := 3

  /** The text stored for one recommendation. */
  function RecommendationText(details: Value, recommendation: string, dumps: Dumps): (r: string)
    ensures Text.StartsWith(r, StudentLabel + dumps(details) + RecommendationLabel)
    ensures Text.EndsWith(r, recommendation)
  {
    StudentLabel + dumps(details) + RecommendationLabel + recommendation
  }

  /** Reads a stored text back into the student's JSON and the
      recommendation, taking the first newline as the end of the JSON. */
  function ParseRecommendationText(text: string): (r: Option<(string, string)>)
    ensures r.Some? ==> '\n' !in r.value.0
    ensures r.Some? ==> text == StudentLabel + r.value.0 + RecommendationLabel + r.value.1
  {
    if !Text.StartsWith(text, StudentLabel) then None
    else
      var body := text[|StudentLabel|..];
      match Text.IndexOf(body, '\n')
      case None => None
      case Some(i) =>
        if Text.StartsWith(body[i..], RecommendationLabel) then
          LabelledParts(text, i);
          Some((body[..i], body[i + |RecommendationLabel|..]))
        else None
  }

  /** The pieces `ParseRecommendationText` cuts out put the text back
      together. */
  lemma LabelledParts(text: string, i: nat)
    requires Text.StartsWith(text, StudentLabel)
    requires i <= |text| - |StudentLabel|
    requires Text.StartsWith(text[|StudentLabel|..][i..], RecommendationLabel)
    ensures var body := text[|StudentLabel|..];
      text == StudentLabel + body[..i] + RecommendationLabel + body[i + |RecommendationLabel|..]
  {
    var body := text[|StudentLabel|..];
    assert text == StudentLabel + body;
    assert body[i..] == RecommendationLabel + body[i + |RecommendationLabel|..];
    assert body == body[..i] + body[i..];
  }

  /** `json.dumps` escapes newlines inside strings and puts none between
      items, so its output has no newline; then the stored text determines
      both the student's JSON and the recommendation. */
  lemma RecommendationTextRoundTrip(details: Value, recommendation: string, dumps: Dumps)
    requires '\n' !in dumps(details)
    ensures ParseRecommendationText(RecommendationText(details, recommendation, dumps))
            == Some((dumps(details), recommendation))
  {
    var json := dumps(details);
    var text := RecommendationText(details, recommendation, dumps);
    assert Text.StartsWith(text, StudentLabel);
    var body := text[|StudentLabel|..];
    assert body == json + RecommendationLabel + recommendation;
    assert body[|json|] == '\n';
    assert body[..|json|] == json;
    assert Text.IndexOf(body, '\n') == Some(|json|);
    assert body[|json|..] == RecommendationLabel + recommendation;
  }

  /** `metadata or {}`: a falsy metadata value is stored as the empty dict,
      any other is stored as given. */
  function StoredMetadata(metadata: Value): (r: Value)
    ensures Truthy(metadata) ==> r == metadata
    ensures !Truthy(metadata) ==> r == Dict(map[])
  {
    if Truthy(metadata) then metadata else Dict(map[])
  }

  /** The stored metadata is `{}` exactly when the caller's metadata is one
      of the eight falsy values. */
  lemma StoredEmptyExactlyWhenFalsy(metadata: Value)
    ensures StoredMetadata(metadata) == Dict(map[]) <==> metadata in FalsyValues
  {
  }

  /** `store_recommendation`: one entry is appended; earlier entries are
      untouched. */
  function StoreRecommendation(log: Log<Value>, details: Value, recommendation: string,
                               metadata: Value, dumps: Dumps): (r: Log<Value>)
    ensures |r| == |log| + 1
    ensures r[..|log|] == log
    ensures r[|log|] == Entry(RecommendationText(details, recommendation, dumps), StoredMetadata(metadata))
  {
    AddTexts(log, [RecommendationText(details, recommendation, dumps)], [StoredMetadata(metadata)])
  }

  /** The query `find_similar_recommendations` searches with. */
  function RecommendationQuery(details: Value, dumps: Dumps): string {
    dumps(details)
  }

  /** `find_similar_recommendations`: the library's search for the
      student's details as JSON, returned as is. */
  function FindSimilarRecommendations(log: Log<Value>, details: Value, search: Search<Value>,
                                      dumps: Dumps, nResults: nat := DefaultResults): (r: seq<Entry<Value>>)
    ensures r == search(log, dumps(details), nResults)
  {
    search(log, RecommendationQuery(details, dumps), nResults)
  }

  /** The query for some details occurs, verbatim, in the text stored for a
      recommendation made for the same details. */
  lemma QueryOccursInStoredText(details: Value, recommendation: string, dumps: Dumps)
    ensures Text.Contains(RecommendationText(details, recommendation, dumps), RecommendationQuery(details, dumps))
  {
    var query := RecommendationQuery(details, dumps);
    var text := RecommendationText(details, recommendation, dumps);
    assert text[|StudentLabel|..|StudentLabel| + |query|] == query;
    Text.ContainsAt(text, query, |StudentLabel|);
  }
}

=== FILE: outcomes.dfy ===
/** Failure-compatible wrappers used throughout the model: `Option` for a
    value that may be absent (a parse that fails) and `Result` for an
    operation that may raise a Python exception. Both work with `:-`. */
module Outcomes {

  datatype Option<+T> = None | Some(value: T) {

    predicate IsFailure() {
      None?
    }

    function PropagateFailure<U>(): Option<U>
      requires None?
    {
      None
    }

    function Extract(): T
      requires Some?
    {
      value
    }
  }

  datatype Result<+T, +E> = Ok(value: T) | Err(error: E) {

    predicate IsFailure() {
      Err?
    }

    function PropagateFailure<U>(): Result<U, E>
      requires Err?
    {
      Err(error)
    }

    function Extract(): T
      requires Ok?
    {
      value
    }
  }
}

=== FILE: py_value.dfy ===
/** The Python values that reach the stores: caller metadata, lender
    records, student details. Only the behaviours the stores rely on are
    modelled: `isinstance` tests, truthiness, `str()` and `str.join`. */
module PyValue {
  import opened Outcomes
  import Text

  /** A Python value. `Null` is Python's `None`. A float carries the text
      that `str()` gives for it, since float formatting is not modelled.
      Dictionary keys are strings, as in JSON objects. */
  datatype Value =
    | Null
    | Bool(b: bool)
    | Int(i: int)
    | Float(text: string)
    | Str(s: string)
    | List(items: seq<Value>)
    | Dict(entries: map<string, Value>)

  /** The Python exceptions the stores can raise. */
  datatype PyError =
    | KeyError(key: string)  // subscripting a dict with a missing key
    | TypeError              // subscripting a non-dict, joining non-strings

  /** `isinstance(v, (str, int, float, bool))`: only `None`, lists and
      dicts fail it. */
  function IsScalar(v: Value): (r: bool)
    ensures !r <==> v.Null? || v.List? || v.Dict?
  {
    v.Str? || v.Int? || v.Float? || v.Bool?
  }

  /** The values that are false in a condition: `None`, `False`, zero, and
      the empty string, list and dict. The only zero floats are `0.0` and
      `-0.0`, whose `str()` texts are written out here. */
  const FalsyValues: seq<Value> :=
    [Null, Bool(false), Int(0), Float("0.0"), Float("-0.0"), Str(""), List([]), Dict(map[])]

  /** Python truthiness: a value is false exactly when it is one of the
      eight falsy values. */
  function Truthy(v: Value): (r: bool)
    ensures !r <==> v in FalsyValues
  {
    match v
    case Null => false
    case Bool(b) => b
    case Int(i) => i != 0
    case Float(t) => t != "0.0" && t != "-0.0"
    case Str(s) => s != ""
    case List(xs) => xs != []
    case Dict(m) => m != map[]
  }

  predicate IsDigit(c: char) {
    '0' <= c <= '9'
  }

  function DigitChar(d: nat): (c: char)
    requires d < 10
    ensures IsDigit(c) && c as int - '0' as int == d
  {
    ('0' as int + d) as char
  }

  /** Decimal digits of `n` without leading zeros, most significant first. */
  function NatToDecimal(n: nat): (r: string)
    ensures |r| >= 1
    ensures forall k :: 0 <= k < |r| ==> IsDigit(r[k])
    ensures r[0] == '0' <==> n == 0
    ensures |r| > 1 ==> r[0] != '0'
    decreases n
  {
    if n < 10 then [DigitChar(n)] else NatToDecimal(n / 10) + [DigitChar(n % 10)]
  }

  /** `str(i)` for a Python int: an optional minus sign, then the digits. */
  function IntToDecimal(i: int): (r: string)
    ensures |r| >= 1 && (r[0] == '-' <==> i < 0)
    ensures var digits := if i < 0 then r[1..] else r;
      && |digits| >= 1
      && (forall k :: 0 <= k < |digits| ==> IsDigit(digits[k]))
      && (digits[0] == '0' <==> i == 0)
    ensures i == 0 ==> r == "0"
  {
    if i < 0 then
      var r := "-" + NatToDecimal(-i);
      assert r[1..] == NatToDecimal(-i);
      r
    else NatToDecimal(i)
  }

  /** The value of a non-empty string of decimal digits. */
  function DigitsValue(s: string): nat
    requires forall k :: 0 <= k < |s| ==> IsDigit(s[k])
    decreases |s|
  {
    if |s| == 0 then 0
    else
      var last := s[|s| - 1];
      assert IsDigit(last);
      DigitsValue(s[..|s| - 1]) * 10 + (last as int - '0' as int)
  }

  /** `int(s)` restricted to what `str()` of an int produces: an optional
      minus sign and at least one digit. */
  function ParseDecimal(s: string): Option<int> {
    if |s| > 0 && s[0] == '-' then
      if |s| > 1 && forall k :: 1 <= k < |s| ==> IsDigit(s[k]) then Some(0 - DigitsValue(s[1..]) as int) else None
    else if |s| > 0 && forall k :: 0 <= k < |s| ==> IsDigit(s[k]) then Some(DigitsValue(s))
    else None
  }

  lemma {:induction false} NatDecimalRoundTrip(n: nat)
    ensures DigitsValue(NatToDecimal(n)) == n
    decreases n
  {
    if n >= 10 {
      NatDecimalRoundTrip(n / 10);
      var r := NatToDecimal(n);
      assert r[..|r| - 1] == NatToDecimal(n / 10);
    }
  }

  /** Reading back the decimal text of an int gives the same int. */
  lemma IntDecimalRoundTrip(i: int)
    ensures ParseDecimal(IntToDecimal(i)) == Some(i)
  {
    var s := IntToDecimal(i);
    if i < 0 {
      var digits := NatToDecimal(-i);
      NatDecimalRoundTrip(-i);
      assert s[1..] == digits;
      assert forall k :: 1 <= k < |s| ==> IsDigit(s[k]) by {
        forall k | 1 <= k < |s| ensures IsDigit(s[k]) {
          assert s[k] == digits[k - 1];
        }
      }
      assert ParseDecimal(s) == Some(0 - DigitsValue(digits) as int);
    } else {
      NatDecimalRoundTrip(i);
      assert IsDigit(s[0]);
      assert ParseDecimal(s) == Some(DigitsValue(s));
    }
  }

  /** `str(v)` for a scalar: a string is itself, an int its decimal digits,
      a bool `True` or `False`, a float its own text. */
  function ScalarStr(v: Value): (r: string)
    requires IsScalar(v)
    ensures v.Str? ==> r == v.s
    ensures v.Int? ==> r == IntToDecimal(v.i) && ParseDecimal(r) == Some(v.i)
    ensures v.Float? ==> r == v.text
    ensures v.Bool? ==> r == (if v.b then "True" else "False")
  {
    match v
    case Str(s) => s
    case Int(i) => IntDecimalRoundTrip(i); IntToDecimal(i)
    case Float(t) => t
    case Bool(b) => if b then "True" else "False"
  }

  /** `str(v)` for any value. The text of a list or dict (its `repr`) is
      supplied by `containerStr`, since repr formatting is not modelled. */
  function PyStr(v: Value, containerStr: Value -> string): (r: string)
    ensures IsScalar(v) ==> r == ScalarStr(v)
    ensures v.Null? ==> r == "None"
  {
    if IsScalar(v) then ScalarStr(v)
    else if v.Null? then "None"
    else containerStr(v)
  }

  /** The one-character strings of `s`: what iterating over a str yields. */
  function Chars(s: string): (r: seq<string>)
    ensures |r| == |s|
    ensures forall k :: 0 <= k < |s| ==> r[k] == [s[k]]
  {
    seq(|s|, k requires 0 <= k < |s| => [s[k]])
  }

  /** `sep.join(v)`: a list whose items are all strings is joined; a string
      is iterated character by character; anything else raises TypeError. */
  function JoinStrings(sep: string, v: Value): (r: Result<string, PyError>)
    ensures r.Ok? <==> v.Str? || (v.List? && forall k :: 0 <= k < |v.items| ==> v.items[k].Str?)
    ensures v == List([]) ==> r == Ok("")
    ensures forall x :: v == List([Str(x)]) ==> r == Ok(x)
    ensures v.Str? && |v.s| <= 1 ==> r == Ok(v.s)
  {
    match v
    case Str(s) =>
      assert |s| == 1 ==> Chars(s)[0] == s;
      Ok(Text.Join(Chars(s), sep))
    case List(xs) =>
      if forall k :: 0 <= k < |xs| ==> xs[k].Str? then
        Ok(Text.Join(seq(|xs|, k requires 0 <= k < |xs| => xs[k].s), sep))
      else Err(TypeError)
    case _ => Err(TypeError)
  }

  /** What `sep.join` produces from two or more items: the first item, the
      separator, then the join of the rest; a str's characters are joined
      the same way, so `", ".join("ab")` is `"a, b"`. */
  lemma JoinStringsSeparates(sep: string, v: Value)
    ensures v.List? && JoinStrings(sep, v).Ok? && |v.items| >= 2 ==>
      JoinStrings(sep, v).value == v.items[0].s + sep + JoinStrings(sep, List(v.items[1..])).value
    ensures v.Str? && |v.s| >= 2 ==>
      JoinStrings(sep, v).value == [v.s[0]] + sep + JoinStrings(sep, Str(v.s[1..])).value
  {
    match v
    case Str(s) =>
      if |s| >= 2 {
        assert Chars(s)[1..] == Chars(s[1..]);
      }
    case List(xs) =>
      if JoinStrings(sep, v).Ok? && |xs| >= 2 {
        var texts := seq(|xs|, k requires 0 <= k < |xs| => xs[k].s);
        assert texts[1..] == seq(|xs| - 1, k requires 0 <= k < |xs| - 1 => xs[1..][k].s);
      }
    case _ =>
  }
}

=== FILE: response_format.dfy ===
/** `formatResponse` of src/app/page.js: the chat reply turned into HTML.
    Four regular-expression replacements are applied: bold, italics, `## `
    headings, and a `^### ` rule that never fires after the `## ` rule (see
    `H3NeverFires`). The text is then cut into paragraphs at each `\n\n`.
    A paragraph containing a newline followed by `-` becomes a `<p>` holding
    its first line, then a `<ul>` list of its later non-blank lines; any other
    paragraph becomes a `<p>` with `<br>` line breaks. A `-` on the first
    line of a paragraph does not start a list. */
module ResponseFormat {
  import opened Outcomes
  import opened Text

  /** ECMAScript line terminators: the characters `.` does not match. */
  predicate IsLineTerminator(c: char) {
    c == '\n' || c == '\r' || c == '\U{2028}' || c == '\U{2029}'
  }

  /** ECMAScript white space and line terminators: what `\s` matches and
      `trim()` removes. */
  predicate IsJsSpace(c: char) {
    || c == '\t' || c == '\n' || c == '\U{000B}' || c == '\U{000C}' || c == '\r'
    || c == ' ' || c == '\U{00A0}' || c == '\U{1680}' || ('\U{2000}' <= c <= '\U{200A}')
    || c == '\U{2028}' || c == '\U{2029}' || c == '\U{202F}' || c == '\U{205F}'
    || c == '\U{3000}' || c == '\U{FEFF}'
  }

  predicate NoLineTerminator(s: string) {
    forall k :: 0 <= k < |s| ==> !IsLineTerminator(s[k])
  }

  // ---------------------------------------------------------------------
  // Inline markup: `**x**` and `__x__`

  /** Where the lazy `(.*?)` of `d(.*?)d` ends, searching `t` (the text after
      the opening `d`): the first position at which `d` occurs, provided no
      line terminator comes before it; `None` when no such position exists. */
  function FindClose(t: string, d: string): (r: Option<nat>)
    requires |d| > 0
    ensures r.Some? ==> r.value + |d| <= |t| && t[r.value..r.value + |d|] == d
    ensures r.Some? ==> NoLineTerminator(t[..r.value])
    decreases |t|
  {
    if StartsWith(t, d) then Some(0)
    else if |t| == 0 || IsLineTerminator(t[0]) then None
    else
      match FindClose(t[1..], d)
      case None => None
      case Some(j) =>
        assert t[..j + 1] == [t[0]] + t[1..][..j];
        Some(j + 1)
  }

  /** The lazy match is the shortest: no delimiter starts before the
      position found, and when none is found, every delimiter in the text
      has a line terminator before it. */
  lemma {:induction false} FindCloseShortest(t: string, d: string)
    requires |d| > 0
    ensures FindClose(t, d).Some? ==>
      forall k :: 0 <= k < FindClose(t, d).value ==> !StartsWith(t[k..], d)
    ensures FindClose(t, d).None? ==>
      forall j :: 0 <= j <= |t| && NoLineTerminator(t[..j]) ==> !StartsWith(t[j..], d)
    decreases |t|
  {
    if StartsWith(t, d) {
    } else if |t| == 0 {
    } else if IsLineTerminator(t[0]) {
      forall j | 0 < j <= |t| ensures !NoLineTerminator(t[..j]) {
        assert t[..j][0] == t[0];
      }
    } else {
      FindCloseShortest(t[1..], d);
      forall j | 1 <= j <= |t|
        ensures t[j..] == t[1..][j - 1..]
        ensures NoLineTerminator(t[..j]) ==> NoLineTerminator(t[1..][..j - 1])
      {
        assert t[1..][..j - 1] == t[1..j];
      }
    }
  }

  /** `s.replace(/d(.*?)d/g, open + "$1" + close)`: scanning left to right,
      each `d`, shortest run of text without a line break, `d` is replaced;
      a `d` with no partner on its line is left as it is. */
  function ReplacePaired(s: string, d: string, open: string, close: string): (r: string)
    requires |d| > 0
    ensures !Contains(s, d) ==> r == s
    decreases |s|
  {
    if |s| == 0 then ""
    else if StartsWith(s, d) && FindClose(s[|d|..], d).Some? then
      var j := FindClose(s[|d|..], d).value;
      open + s[|d|..|d| + j] + close + ReplacePaired(s[|d| + j + |d|..], d, open, close)
    else
      assert s == [s[0]] + s[1..];
      [s[0]] + ReplacePaired(s[1..], d, open, close)
  }

  /** The bold step: `**x**` becomes `<strong>x</strong>`. */
  function Bold(s: string): (r: string)
    ensures !Contains(s, "**") ==> r == s
  {
    ReplacePaired(s, "**", "<strong>", "</strong>")
  }

  /** The italic step: `__x__` becomes `<em>x</em>`. */
  function Italic(s: string): (r: string)
    ensures !Contains(s, "__") ==> r == s
  {
    ReplacePaired(s, "__", "<em>", "</em>")
  }

  /** A text that does not start with the delimiter keeps its first
      character. */
  lemma ReplacePairedSkip(s: string, d: string, open: string, close: string)
    requires |d| > 0 && |s| > 0 && !StartsWith(s, d)
    ensures ReplacePaired(s, d, open, close) == [s[0]] + ReplacePaired(s[1..], d, open, close)
  {
  }

  /** A delimiter with a partner on its line opens a replaced pair. */
  lemma ReplacePairedMatch(s: string, d: string, open: string, close: string, j: nat)
    requires |d| > 0 && StartsWith(s, d) && FindClose(s[|d|..], d) == Some(j)
    ensures ReplacePaired(s, d, open, close)
            == open + s[|d|..|d| + j] + close + ReplacePaired(s[|d| + j + |d|..], d, open, close)
  {
  }

  /** Neither `a` nor what follows it starts with `[c, c]` when `a + [c]`
      holds no `[c, c]` and `a` is not empty. */
  lemma NoPairAtStart(a: string, c: char, tail: string)
    requires |a| > 0 && !Contains(a + [c], [c, c])
    ensures !StartsWith(a + [c] + tail, [c, c])
    ensures !Contains(a[1..] + [c], [c, c])
  {
    var b := a + [c];
    assert !StartsWith(b, [c, c]);
    assert (a + [c] + tail)[..2] == b[..2];
    assert b[1..] == a[1..] + [c];
  }

  /** After `x` (which does not contain a doubled delimiter character, and
      does not end with one), the first closing delimiter is the one that
      follows it. */
  lemma {:induction false} FindCloseAfter(x: string, rest: string, c: char)
    requires NoLineTerminator(x) && !Contains(x + [c], [c, c])
    requires StartsWith(rest, [c, c])
    ensures FindClose(x + rest, [c, c]) == Some(|x|)
    decreases |x|
  {
    var t := x + rest;
    if |x| == 0 {
      assert t == rest;
    } else {
      assert rest == [c] + rest[1..];
      assert t == x + [c] + rest[1..];
      NoPairAtStart(x, c, rest[1..]);
      assert !IsLineTerminator(t[0]);
      assert t[1..] == x[1..] + rest;
      FindCloseAfter(x[1..], rest, c);
    }
  }

  /** A marker pair at the start of the text, around text with no line
      break and no stray delimiter character, becomes one element. */
  lemma ReplacedPairAtStart(x: string, post: string, c: char, open: string, close: string)
    requires NoLineTerminator(x) && !Contains(x + [c], [c, c])
    ensures ReplacePaired([c, c] + x + [c, c] + post, [c, c], open, close)
            == open + x + close + ReplacePaired(post, [c, c], open, close)
  {
    var d := [c, c];
    var s := d + x + d + post;
    assert s[|d|..] == x + (d + post);
    FindCloseAfter(x, d + post, c);
    assert s[|d|..|d| + |x|] == x;
    assert s[|d| + |x| + |d|..] == post;
    ReplacePairedMatch(s, d, open, close, |x|);
  }

  /** A prefix that cannot open a pair passes its first character
      through. */
  lemma SkipPrefixCharacter(pre: string, tail: string, c: char, open: string, close: string)
    requires |pre| > 0 && !Contains(pre + [c], [c, c]) && StartsWith(tail, [c])
    ensures ReplacePaired(pre + tail, [c, c], open, close)
            == [pre[0]] + ReplacePaired(pre[1..] + tail, [c, c], open, close)
    ensures !Contains(pre[1..] + [c], [c, c])
  {
    var s := pre + tail;
    assert s == pre + [c] + tail[1..];
    NoPairAtStart(pre, c, tail[1..]);
    ReplacePairedSkip(s, [c, c], open, close);
    assert s[1..] == pre[1..] + tail;
  }

  /** One step of `ReplacePairedPrefix`: if the prefix without its first
      character passes through, so does the whole prefix. */
  lemma PrefixStep(pre: string, tail: string, c: char, open: string, close: string)
    requires |pre| > 0 && !Contains(pre + [c], [c, c]) && StartsWith(tail, [c])
    requires ReplacePaired(pre[1..] + tail, [c, c], open, close)
             == pre[1..] + ReplacePaired(tail, [c, c], open, close)
    ensures ReplacePaired(pre + tail, [c, c], open, close) == pre + ReplacePaired(tail, [c, c], open, close)
  {
    var out := ReplacePaired(tail, [c, c], open, close);
    SkipPrefixCharacter(pre, tail, c, open, close);
    assert pre + out == [pre[0]] + (pre[1..] + out);
  }

  /** A prefix that cannot open a pair, followed by a text starting with the
      delimiter character, passes through unchanged. */
  lemma {:induction false} ReplacePairedPrefix(pre: string, tail: string, c: char, open: string, close: string)
    requires !Contains(pre + [c], [c, c]) && StartsWith(tail, [c])
    ensures ReplacePaired(pre + tail, [c, c], open, close) == pre + ReplacePaired(tail, [c, c], open, close)
    decreases |pre|
  {
    if |pre| == 0 {
      assert pre + tail == tail;
    } else {
      NoPairAtStart(pre, c, tail[1..]);
      ReplacePairedPrefix(pre[1..], tail, c, open, close);
      PrefixStep(pre, tail, c, open, close);
    }
  }

  /** A marker pair around text with no line break and no stray delimiter
      character becomes one element, when the text before it cannot open a
      pair of its own. */
  lemma ReplacePairedPair(pre: string, x: string, post: string, c: char, open: string, close: string)
    requires !Contains(pre + [c], [c, c])
    requires NoLineTerminator(x) && !Contains(x + [c], [c, c])
    ensures ReplacePaired(pre + ([c, c] + x + [c, c] + post), [c, c], open, close)
            == pre + (open + x + close + ReplacePaired(post, [c, c], open, close))
  {
    var tail := [c, c] + x + [c, c] + post;
    ReplacedPairAtStart(x, post, c, open, close);
    assert StartsWith(tail, [c]);
    ReplacePairedPrefix(pre, tail, c, open, close);
  }

  /** `**x**`, for `x` without a line break or a stray `*`, is bold. */
  lemma BoldPair(x: string)
    requires NoLineTerminator(x) && !Contains(x + "*", "**")
    ensures Bold("**" + x + "**") == "<strong>" + x + "</strong>"
  {
    ReplacedPairAtStart(x, "", '*', "<strong>", "</strong>");
    assert "**" + x + "**" + "" == "**" + x + "**";
    assert Bold("") == "";
  }

  // ---------------------------------------------------------------------
  // Headings: `## ` anywhere, `### ` at the very start

  /** Where the greedy `(.*)` that starts at `i` stops: the first line
      terminator at or after `i`, or the end of the text. */
  function LineEnd(s: string, i: nat): (j: nat)
    requires i <= |s|
    ensures i <= j <= |s|
    ensures NoLineTerminator(s[i..j])
    ensures j < |s| ==> IsLineTerminator(s[j])
    decreases |s| - i
  {
    if i == |s| || IsLineTerminator(s[i]) then i
    else
      var j := LineEnd(s, i + 1);
      assert s[i..j] == [s[i]] + s[i + 1..j];
      j
  }

  /** `s.replace(/## (.*)/g, "<h2>$1</h2>")`: every `## ` outside a
      heading already matched on the same line opens an `<h2>` that runs to
      the end of its line. */
  function ReplaceH2(s: string): (r: string)
    ensures !Contains(s, "## ") ==> r == s
    decreases |s|
  {
    if StartsWith(s, "## ") then
      var j := LineEnd(s, 3);
      "<h2>" + s[3..j] + "</h2>" + ReplaceH2(s[j..])
    else if |s| == 0 then ""
    else
      assert s == [s[0]] + s[1..];
      [s[0]] + ReplaceH2(s[1..])
  }

  /** `s.replace(/^### (.*)/g, "<h3>$1</h3>")`: without the `m` flag `^`
      matches only at the start of the whole text. */
  function ReplaceH3(s: string): (r: string)
    ensures !StartsWith(s, "### ") ==> r == s
    ensures StartsWith(s, "### ") ==> StartsWith(r, "<h3>") && EndsWith(r, s[LineEnd(s, 4)..])
  {
    if StartsWith(s, "### ") then
      var j := LineEnd(s, 4);
      "<h3>" + s[4..j] + "</h3>" + s[j..]
    else s
  }

  /** The greedy `(.*)` that starts at `i` stops at `e` when the text
      between holds no line terminator and `e` is the end of the text or a
      line terminator. */
  lemma {:induction false} LineEndIs(s: string, i: nat, e: nat)
    requires i <= e <= |s| && NoLineTerminator(s[i..e])
    requires e == |s| || IsLineTerminator(s[e])
    ensures LineEnd(s, i) == e
    decreases e - i
  {
    if i < e {
      assert s[i..e][0] == s[i];
      assert s[i + 1..e] == s[i..e][1..];
      LineEndIs(s, i + 1, e);
    }
  }

  /** `## x` becomes `<h2>x</h2>`, the heading running to the end of its
      line; what follows the line is processed on its own. */
  lemma H2Line(x: string, rest: string)
    requires NoLineTerminator(x) && (rest == [] || IsLineTerminator(rest[0]))
    ensures ReplaceH2("## " + x + rest) == "<h2>" + x + "</h2>" + ReplaceH2(rest)
  {
    var s := "## " + x + rest;
    var e := 3 + |x|;
    assert StartsWith(s, "## ");
    assert s[3..e] == x && s[e..] == rest;
    LineEndIs(s, 3, e);
  }

  /** How `ReplaceH2` begins: with `<` when a heading starts, otherwise
      with the first character of the text. */
  lemma H2Step(s: string)
    ensures StartsWith(s, "## ") ==> |ReplaceH2(s)| > 0 && ReplaceH2(s)[0] == '<'
    ensures !StartsWith(s, "## ") && |s| > 0 ==> ReplaceH2(s) == [s[0]] + ReplaceH2(s[1..])
    ensures |s| == 0 ==> ReplaceH2(s) == ""
  {
  }

  /** The `## ` step never leaves text starting with `## `. */
  lemma NoLeadingH2(s: string)
    ensures !StartsWith(ReplaceH2(s), "## ")
  {
    H2Step(s);
  }

  /** The `^### ` rule never fires: the unanchored `## ` rule has already
      turned the `## ` inside a leading `### ` into a heading. */
  lemma H3NeverFires(s: string)
    ensures ReplaceH3(ReplaceH2(s)) == ReplaceH2(s)
  {
    var r := ReplaceH2(s);
    if StartsWith(r, "### ") {
      H2Step(s);
      assert !StartsWith(s, "## ") && |s| > 0;
      var r1 := ReplaceH2(s[1..]);
      assert r == [s[0]] + r1;
      assert r1[..3] == r[1..4];
      NoLeadingH2(s[1..]);
      assert false;
    }
  }

  /** All four replacements, in the order the source applies them. Text
      with no `**`, no `__` and no `## ` is left unchanged. */
  function Markup(text: string): (r: string)
    ensures !Contains(text, "**") && !Contains(text, "__") && !Contains(text, "## ") ==> r == text
  {
    assert StartsWith(text, "### ") ==> text[1..][..3] == "## ";
    ReplaceH3(ReplaceH2(Italic(Bold(text))))
  }

  // ---------------------------------------------------------------------
  // Paragraphs and lists

  const ParagraphBreak: string := "\n\n"
  const ListMarker: string := "\n-"

  /** One rendered paragraph: plain text with `<br>` breaks, or an intro
      line followed by list items. */
  datatype Block =
    | Plain(body: string)
    | Bulleted(intro: string, items: seq<string>)

  /** `!point.trim()`: the line holds only white space. */
  predicate IsBlank(s: string) {
    forall k :: 0 <= k < |s| ==> IsJsSpace(s[k])
  }

  /** The text left once leading white space is removed. */
  function DropSpaces(s: string): (r: string)
    ensures |r| <= |s| && r == s[|s| - |r|..]
    ensures IsBlank(s[..|s| - |r|])
    ensures |r| > 0 ==> !IsJsSpace(r[0])
    decreases |s|
  {
    if |s| > 0 && IsJsSpace(s[0]) then
      var r := DropSpaces(s[1..]);
      assert s[..|s| - |r|] == [s[0]] + s[1..][..|s[1..]| - |r|];
      r
    else s
  }

  /** `point.replace(/^-\s*\/, "")`: one leading `-` and the white space
      after it are removed; a line not starting with `-` is unchanged. */
  function StripBullet(point: string): (r: string)
    ensures !StartsWith(point, "-") ==> r == point
    ensures StartsWith(point, "-") ==>
      |r| < |point| && r == point[|point| - |r|..] && IsBlank(point[1..|point| - |r|])
      && (|r| > 0 ==> !IsJsSpace(r[0]))
  {
    if StartsWith(point, "-") then
      var tail := point[1..];
      var r := DropSpaces(tail);
      assert tail[..|tail| - |r|] == point[1..|point| - |r|];
      assert tail[|tail| - |r|..] == point[|point| - |r|..];
      r
    else point
  }

  /** The list items of the lines after the intro: blank lines are skipped,
      every other line is an item with its bullet stripped. */
  function ListItems(points: seq<string>): (r: seq<string>)
    ensures |r| <= |points|
    ensures (forall k :: 0 <= k < |points| ==> '\n' !in points[k]) ==>
      forall k :: 0 <= k < |r| ==> '\n' !in r[k]
    decreases |points|
  {
    if |points| == 0 then []
    else (if IsBlank(points[0]) then [] else [StripBullet(points[0])]) + ListItems(points[1..])
  }

  /** Lines are turned into items one at a time, in order. */
  lemma {:induction false} ListItemsAppend(a: seq<string>, b: seq<string>)
    ensures ListItems(a + b) == ListItems(a) + ListItems(b)
    decreases |a|
  {
    if |a| > 0 {
      var head := if IsBlank(a[0]) then [] else [StripBullet(a[0])];
      assert (a + b)[0] == a[0] && (a + b)[1..] == a[1..] + b;
      assert ListItems(a + b) == head + ListItems(a[1..] + b);
      assert ListItems(a) == head + ListItems(a[1..]);
      ListItemsAppend(a[1..], b);
    } else {
      assert a + b == b;
    }
  }

  /** Positions of the lines that are not blank. */
  function NonBlankPositions(points: seq<string>): set<nat> {
    set i: nat | i < |points| && !IsBlank(points[i])
  }

  /** Adding a line adds its position to the non-blank ones exactly when
      it is not blank. */
  lemma NonBlankPositionsSnoc(init: seq<string>, last: string)
    ensures NonBlankPositions(init + [last])
            == NonBlankPositions(init) + (if IsBlank(last) then {} else {|init|})
    ensures |init| !in NonBlankPositions(init)
  {
    var all := init + [last];
    forall i: nat | i < |init| ensures all[i] == init[i] {
    }
  }

  /** There is one item per non-blank line. */
  lemma {:induction false} ListItemsCount(points: seq<string>)
    ensures |ListItems(points)| == |NonBlankPositions(points)|
    decreases |points|
  {
    if |points| > 0 {
      var n := |points| - 1;
      var init := points[..n];
      var last := points[n];
      assert points == init + [last];
      ListItemsAppend(init, [last]);
      ListItemsCount(init);
      NonBlankPositionsSnoc(init, last);
      assert |ListItems([last])| == (if IsBlank(last) then 0 else 1) by {
        assert [last][1..] == [];
      }
    } else {
      assert NonBlankPositions(points) == {};
    }
  }

  /** How one paragraph is rendered: a list when it contains a line break
      followed by `-`, plain text otherwise. */
  function ToBlock(paragraph: string): (r: Block)
    ensures r.Bulleted? <==> Contains(paragraph, ListMarker)
    ensures r.Plain? ==> '\n' !in r.body
    ensures r.Bulleted? ==> '\n' !in r.intro && forall k :: 0 <= k < |r.items| ==> '\n' !in r.items[k]
  {
    if Contains(paragraph, ListMarker) then
      var lines := Split(paragraph, "\n");
      SplitPiecesAvoidCharacter(paragraph, '\n');
      Bulleted(lines[0], ListItems(lines[1..]))
    else
      ReplaceCharRemoves(paragraph, '\n', "<br>");
      Plain(ReplaceChar(paragraph, '\n', "<br>"))
  }

  /** The `<li>` elements of a list, in order. */
  function ItemsHtml(items: seq<string>): (r: string)
    ensures (forall k :: 0 <= k < |items| ==> '\n' !in items[k]) ==> '\n' !in r
    decreases |items|
  {
    if |items| == 0 then "" else "<li>" + items[0] + "</li>" + ItemsHtml(items[1..])
  }

  /** The HTML of one block: it always opens with `<p>`, and it holds no
      newline when its texts hold none. */
  function Html(block: Block): (r: string)
    ensures StartsWith(r, "<p>")
    ensures block.Plain? && '\n' !in block.body ==> '\n' !in r
    ensures (block.Bulleted? && '\n' !in block.intro
             && forall k :: 0 <= k < |block.items| ==> '\n' !in block.items[k]) ==> '\n' !in r
  {
    match block
    case Plain(body) => "<p>" + body + "</p>"
    case Bulleted(intro, items) => "<p>" + intro + "</p><ul>" + ItemsHtml(items) + "</ul>"
  }

  /** A plain paragraph keeps no newline: each one becomes `<br>`, and its
      body is the paragraph's lines joined with `<br>`. */
  lemma PlainParagraph(paragraph: string)
    requires !Contains(paragraph, ListMarker)
    ensures ToBlock(paragraph).Plain?
    ensures '\n' !in ToBlock(paragraph).body
    ensures ToBlock(paragraph).body == Join(Split(paragraph, "\n"), "<br>")
    ensures '\n' !in paragraph ==> ToBlock(paragraph).body == paragraph
  {
    ReplaceCharRemoves(paragraph, '\n', "<br>");
    ReplaceCharIsSplitJoin(paragraph, '\n', "<br>");
    if '\n' !in paragraph {
      ReplaceCharAbsent(paragraph, '\n', "<br>");
    }
  }

  /** A list paragraph's intro is its first line, and it has one item per
      later line that is not blank. */
  lemma ListParagraph(paragraph: string)
    requires Contains(paragraph, ListMarker)
    ensures ToBlock(paragraph).Bulleted?
    ensures var intro := ToBlock(paragraph).intro;
      && '\n' !in intro
      && StartsWith(paragraph, intro + "\n")
    ensures var lines := Split(paragraph, "\n");
      |ToBlock(paragraph).items| == |NonBlankPositions(lines[1..])|
  {
    var lines := Split(paragraph, "\n");
    ListItemsCount(lines[1..]);
    assert '\n' in paragraph by {
      ContainsNewline(paragraph);
    }
    var i := IndexOf(paragraph, '\n').value;
    FirstLineEndsAtNewline(paragraph, i);
  }

  /** A text containing `\n-` contains a newline. */
  lemma {:induction false} ContainsNewline(s: string)
    requires Contains(s, ListMarker)
    ensures '\n' in s
    decreases |s|
  {
    if StartsWith(s, ListMarker) {
      assert s[0] == '\n';
    } else {
      ContainsNewline(s[1..]);
    }
  }

  /** The first piece of a split at newlines ends at the first newline. */
  lemma {:induction false} FirstLineEndsAtNewline(s: string, i: nat)
    requires i < |s| && s[i] == '\n' && '\n' !in s[..i]
    ensures Split(s, "\n")[0] == s[..i]
    decreases i
  {
    if i == 0 {
      assert StartsWith(s, "\n");
    } else {
      assert s[..i][0] == s[0];
      assert !StartsWith(s, "\n");
      assert s[1..][..i - 1] == s[1..i];
      FirstLineEndsAtNewline(s[1..], i - 1);
      assert s[..i] == [s[0]] + s[1..i];
    }
  }

  // ---------------------------------------------------------------------
  // The whole reply

  /** The marked-up reply cut at each `\n\n`. */
  function Paragraphs(text: string): seq<string> {
    Split(Markup(text), ParagraphBreak)
  }

  /** Each paragraph rendered, one after the other. */
  function RenderParagraphs(paragraphs: seq<string>): (r: string)
    ensures |paragraphs| > 0 ==> StartsWith(r, "<p>")
    ensures '\n' !in r
    decreases |paragraphs|
  {
    if |paragraphs| == 0 then ""
    else Html(ToBlock(paragraphs[0])) + RenderParagraphs(paragraphs[1..])
  }

  /** `formatResponse(text)`: the reply always opens with `<p>` and contains
      no `\n`, every `\n` having become a `<br>`, a paragraph boundary or a
      list boundary. `\r`, U+2028 and U+2029 never become `<br>`. They
      survive in plain paragraphs; in a list, a line made only of white space
      (these included) is dropped, and any of them directly after the
      leading `-` is stripped. */
  function FormatResponse(text: string): (r: string)
    ensures StartsWith(r, "<p>")
    ensures '\n' !in r
  {
    RenderParagraphs(Paragraphs(text))
  }

  /** Rendering is the concatenation, in order, of one block per
      paragraph. */
  lemma {:induction false} RenderParagraphsIsConcat(ps: seq<string>)
    ensures RenderParagraphs(ps) == Concat(seq(|ps|, i requires 0 <= i < |ps| => Html(ToBlock(ps[i]))))
    decreases |ps|
  {
    if |ps| > 0 {
      RenderParagraphsIsConcat(ps[1..]);
      var all := seq(|ps|, i requires 0 <= i < |ps| => Html(ToBlock(ps[i])));
      var rest := seq(|ps[1..]|, i requires 0 <= i < |ps[1..]| => Html(ToBlock(ps[1..][i])));
      assert all[1..] == rest;
      assert Concat(all) == all[0] + Concat(all[1..]);
      assert RenderParagraphs(ps) == Html(ToBlock(ps[0])) + RenderParagraphs(ps[1..]);
    }
  }

  /** The paragraphs hold no `\n\n` and, put back together with `\n\n`
      between them, give the marked-up text; the reply is one block per paragraph,
      in order. */
  lemma ParagraphStructure(text: string)
    ensures var ps := Paragraphs(text);
      && Join(ps, ParagraphBreak) == Markup(text)
      && (forall i :: 0 <= i < |ps| ==> !Contains(ps[i], ParagraphBreak))
      && FormatResponse(text) == Concat(seq(|ps|, i requires 0 <= i < |ps| => Html(ToBlock(ps[i]))))
  {
    JoinSplit(Markup(text), ParagraphBreak);
    SplitPiecesAvoidSeparator(Markup(text), ParagraphBreak);
    RenderParagraphsIsConcat(Paragraphs(text));
  }
}

=== FILE: text.dfy ===
/** String operations shared by the stores and the response formatter:
    prefix and substring tests, `str.join` / `Array.prototype.join`,
    `String.prototype.split` with a string separator, and replacing every
    occurrence of one character. */
module Text {
  import opened Outcomes

  predicate StartsWith(s: string, p: string) {
    |p| <= |s| && s[..|p|] == p
  }

  predicate EndsWith(s: string, p: string) {
    |p| <= |s| && s[|s| - |p|..] == p
  }

  /** `t` occurs somewhere in `s` (Python `in`, JavaScript `includes`). */
  predicate Contains(s: string, t: string)
    decreases |s|
  {
    StartsWith(s, t) || (|s| > 0 && Contains(s[1..], t))
  }

  lemma {:induction false} ContainsAt(s: string, t: string, i: nat)
    requires i + |t| <= |s| && s[i..i + |t|] == t
    ensures Contains(s, t)
    decreases i
  {
    if i == 0 {
      assert s[..|t|] == s[i..i + |t|];
    } else {
      assert s[1..][i - 1..i - 1 + |t|] == s[i..i + |t|];
      ContainsAt(s[1..], t, i - 1);
    }
  }

  /** The pieces of `parts` with `sep` between each adjacent pair. */
  function Join(parts: seq<string>, sep: string): string
    decreases |parts|
  {
    if |parts| == 0 then ""
    else if |parts| == 1 then parts[0]
    else parts[0] + sep + Join(parts[1..], sep)
  }

  /** The pieces of `parts` glued together with nothing between them. */
  function Concat(parts: seq<string>): string
    decreases |parts|
  {
    if |parts| == 0 then "" else parts[0] + Concat(parts[1..])
  }

  /** Splits `s` at every occurrence of `sep`, scanning left to right and
      resuming after each occurrence, as JavaScript's `split` with a string
      separator does. There is always at least one piece. */
  function Split(s: string, sep: string): (r: seq<string>)
    requires |sep| > 0
    ensures |r| >= 1
    ensures StartsWith(s, r[0])
    decreases |s|
  {
    if StartsWith(s, sep) then [""] + Split(s[|sep|..], sep)
    else if |s| == 0 then [""]
    else
      var rest := Split(s[1..], sep);
      [[s[0]] + rest[0]] + rest[1..]
  }

  /** Joining after growing the first piece grows the joined string by the
      same prefix. */
  lemma JoinExtendFirst(a: string, rest: seq<string>, sep: string)
    requires |rest| >= 1
    ensures Join([a + rest[0]] + rest[1..], sep) == a + Join(rest, sep)
  {
    var parts := [a + rest[0]] + rest[1..];
    if |rest| > 1 {
      assert parts[1..] == rest[1..];
    }
  }

  /** Joining after an empty first piece starts with the separator. */
  lemma JoinEmptyFirst(rest: seq<string>, sep: string)
    requires |rest| >= 1
    ensures Join([""] + rest, sep) == sep + Join(rest, sep)
  {
    assert ([""] + rest)[1..] == rest;
  }

  /** How `Split` unfolds on a text that starts with the separator. */
  lemma SplitAtSeparator(s: string, sep: string)
    requires |sep| > 0 && StartsWith(s, sep)
    ensures Split(s, sep) == [""] + Split(s[|sep|..], sep)
    ensures s == sep + s[|sep|..]
  {
  }

  /** How `Split` unfolds on a text that does not start with the
      separator. */
  lemma SplitPastCharacter(s: string, sep: string)
    requires |sep| > 0 && |s| > 0 && !StartsWith(s, sep)
    ensures Split(s, sep) == [[s[0]] + Split(s[1..], sep)[0]] + Split(s[1..], sep)[1..]
  {
  }

  /** Joining the pieces of a split with the same separator gives back the
      original string. */
  lemma {:induction false} JoinSplit(s: string, sep: string)
    requires |sep| > 0
    ensures Join(Split(s, sep), sep) == s
    decreases |s|
  {
    if StartsWith(s, sep) {
      SplitAtSeparator(s, sep);
      JoinSplit(s[|sep|..], sep);
      JoinEmptyFirst(Split(s[|sep|..], sep), sep);
    } else if |s| > 0 {
      SplitPastCharacter(s, sep);
      assert s == [s[0]] + s[1..];
      JoinSplit(s[1..], sep);
      JoinExtendFirst([s[0]], Split(s[1..], sep), sep);
    }
  }

  /** No piece of a split contains the separator. */
  lemma {:induction false} SplitPiecesAvoidSeparator(s: string, sep: string)
    requires |sep| > 0
    ensures forall k :: 0 <= k < |Split(s, sep)| ==> !Contains(Split(s, sep)[k], sep)
    decreases |s|
  {
    if StartsWith(s, sep) {
      SplitPiecesAvoidSeparator(s[|sep|..], sep);
      var rest := Split(s[|sep|..], sep);
      assert Split(s, sep) == [""] + rest;
      assert !Contains("", sep);
    } else if |s| == 0 {
      assert !Contains("", sep);
    } else {
      SplitPiecesAvoidSeparator(s[1..], sep);
      var rest := Split(s[1..], sep);
      var first := [s[0]] + rest[0];
      assert Split(s, sep) == [first] + rest[1..];
      assert first[1..] == rest[0];
      assert !StartsWith(first, sep);
      assert !Contains(first, sep);
    }
  }

  /** No occurrence of the separator starts inside the first piece of a
      split. */
  lemma {:induction false} SplitFirstPieceAvoids(s: string, sep: string)
    requires |sep| > 0
    ensures forall k :: 0 <= k < |Split(s, sep)[0]| ==> !StartsWith(s[k..], sep)
    decreases |s|
  {
    if !StartsWith(s, sep) && |s| > 0 {
      var rest := Split(s[1..], sep);
      SplitPastCharacter(s, sep);
      SplitFirstPieceAvoids(s[1..], sep);
      forall k | 0 < k < |Split(s, sep)[0]| ensures !StartsWith(s[k..], sep) {
        assert s[k..] == s[1..][k - 1..];
      }
    }
  }

  /** After the first piece of a split comes either the end of the text (and
      then the first piece is the whole text) or the separator, and the
      other pieces are the split of what follows it. */
  lemma {:induction false} SplitFirstPieceEnds(s: string, sep: string)
    requires |sep| > 0
    ensures var r := Split(s, sep);
      && (|r| == 1 ==> r[0] == s)
      && (|r| > 1 ==> |r[0]| + |sep| <= |s| && StartsWith(s[|r[0]|..], sep)
                      && r[1..] == Split(s[|r[0]| + |sep|..], sep))
    decreases |s|
  {
    var r := Split(s, sep);
    if StartsWith(s, sep) {
      SplitAtSeparator(s, sep);
      assert r[1..] == Split(s[|sep|..], sep);
    } else if |s| > 0 {
      var rest := Split(s[1..], sep);
      SplitPastCharacter(s, sep);
      SplitFirstPieceEnds(s[1..], sep);
      assert |r[0]| == |rest[0]| + 1 && r[1..] == rest[1..];
      if |r| > 1 {
        assert s[|r[0]|..] == s[1..][|rest[0]|..];
        assert s[|r[0]| + |sep|..] == s[1..][|rest[0]| + |sep|..];
      } else {
        assert s == [s[0]] + s[1..];
      }
    }
  }

  /** `Split` cuts at the leftmost occurrence of the separator: the first
      piece runs up to it, no occurrence starts inside the first piece, and
      the other pieces are the split of what follows it. */
  lemma SplitCutsAtFirstOccurrence(s: string, sep: string)
    requires |sep| > 0
    ensures var r := Split(s, sep);
      && (forall k :: 0 <= k < |r[0]| ==> !StartsWith(s[k..], sep))
      && (|r| == 1 ==> r[0] == s)
      && (|r| > 1 ==> |r[0]| + |sep| <= |s| && StartsWith(s[|r[0]|..], sep)
                      && r[1..] == Split(s[|r[0]| + |sep|..], sep))
  {
    SplitFirstPieceAvoids(s, sep);
    SplitFirstPieceEnds(s, sep);
  }

  /** Conversely, when the leftmost occurrence of the separator starts at
      `i`, the first piece is the text before it. */
  lemma {:induction false} SplitAt(s: string, sep: string, i: nat)
    requires |sep| > 0 && i + |sep| <= |s| && StartsWith(s[i..], sep)
    requires forall k :: 0 <= k < i ==> !StartsWith(s[k..], sep)
    ensures Split(s, sep) == [s[..i]] + Split(s[i + |sep|..], sep)
    decreases i
  {
    if i == 0 {
      assert s[0..] == s;
      SplitAtSeparator(s, sep);
    } else {
      assert s[0..] == s;
      SplitPastCharacter(s, sep);
      forall k | 0 <= k < i - 1 ensures !StartsWith(s[1..][k..], sep) {
        assert s[1..][k..] == s[k + 1..];
      }
      assert s[1..][i - 1..] == s[i..];
      SplitAt(s[1..], sep, i - 1);
      assert s[1..][i - 1 + |sep|..] == s[i + |sep|..];
      assert s[..i] == [s[0]] + s[1..][..i - 1];
    }
  }

  /** A text without the separator is a single piece. */
  lemma {:induction false} SplitAbsent(s: string, sep: string)
    requires |sep| > 0 && !Contains(s, sep)
    ensures Split(s, sep) == [s]
    decreases |s|
  {
    if |s| > 0 {
      SplitPastCharacter(s, sep);
      SplitAbsent(s[1..], sep);
      assert s == [s[0]] + s[1..];
    }
  }

  /** Splitting a join gives the pieces back, for a two-character separator
      whose characters differ (such as ", ") and pieces that do not contain
      it: no occurrence can straddle a piece and the separator after it. */
  lemma {:induction false} SplitJoin(parts: seq<string>, sep: string)
    requires |sep| == 2 && sep[0] != sep[1] && |parts| >= 1
    requires forall k :: 0 <= k < |parts| ==> !Contains(parts[k], sep)
    ensures Split(Join(parts, sep), sep) == parts
    decreases |parts|
  {
    if |parts| == 1 {
      SplitAbsent(parts[0], sep);
    } else {
      var p := parts[0];
      var tail := Join(parts[1..], sep);
      var s := p + sep + tail;
      assert Join(parts, sep) == s;
      var i := |p|;
      assert s[i..][..2] == sep;
      forall k | 0 <= k < i ensures !StartsWith(s[k..], sep) {
        if k + 2 <= i {
          if StartsWith(s[k..], sep) {
            assert p[k..k + 2] == s[k..][..2];
            ContainsAt(p, sep, k);
          }
        } else {
          assert s[k..][1] == sep[0];
        }
      }
      SplitAt(s, sep, i);
      assert s[..i] == p;
      assert s[i + |sep|..] == tail;
      SplitJoin(parts[1..], sep);
      assert parts == [p] + parts[1..];
    }
  }

  /** A text that does not contain the one-character string `[c]` does not
      contain `c`. */
  lemma {:induction false} AbsentCharacter(t: string, c: char)
    requires !Contains(t, [c])
    ensures c !in t
    decreases |t|
  {
    if |t| > 0 {
      assert t[..1] == [t[0]];
      AbsentCharacter(t[1..], c);
      assert t == [t[0]] + t[1..];
    }
  }

  /** No piece of a split at a character contains that character. */
  lemma SplitPiecesAvoidCharacter(s: string, c: char)
    ensures forall k :: 0 <= k < |Split(s, [c])| ==> c !in Split(s, [c])[k]
  {
    var pieces := Split(s, [c]);
    SplitPiecesAvoidSeparator(s, [c]);
    forall k | 0 <= k < |pieces| ensures c !in pieces[k] {
      AbsentCharacter(pieces[k], c);
    }
  }

  /** Replaces every occurrence of the character `c` in `s` by `repl`. */
  function ReplaceChar(s: string, c: char, repl: string): string
    decreases |s|
  {
    if |s| == 0 then ""
    else (if s[0] == c then repl else [s[0]]) + ReplaceChar(s[1..], c, repl)
  }

  /** Replacing a character is the same as splitting at it and joining with
      the replacement. */
  lemma {:induction false} ReplaceCharIsSplitJoin(s: string, c: char, repl: string)
    ensures ReplaceChar(s, c, repl) == Join(Split(s, [c]), repl)
    decreases |s|
  {
    if |s| > 0 {
      var rest := Split(s[1..], [c]);
      ReplaceCharIsSplitJoin(s[1..], c, repl);
      if s[0] == c {
        assert StartsWith(s, [c]);
        assert s[|[c]|..] == s[1..];
        JoinEmptyFirst(rest, repl);
      } else {
        assert !StartsWith(s, [c]);
        JoinExtendFirst([s[0]], rest, repl);
      }
    }
  }

  /** After replacing `c` by a string that does not contain it, `c` no longer
      occurs. */
  lemma {:induction false} ReplaceCharRemoves(s: string, c: char, repl: string)
    requires c !in repl
    ensures c !in ReplaceChar(s, c, repl)
    decreases |s|
  {
    if |s| > 0 {
      ReplaceCharRemoves(s[1..], c, repl);
    }
  }

  /** Replacing a character that does not occur changes nothing. */
  lemma {:induction false} ReplaceCharAbsent(s: string, c: char, repl: string)
    requires c !in s
    ensures ReplaceChar(s, c, repl) == s
    decreases |s|
  {
    if |s| > 0 {
      assert c !in s[1..];
      ReplaceCharAbsent(s[1..], c, repl);
      assert s == [s[0]] + s[1..];
    }
  }

  /** Position of the first occurrence of `c` in `s`, if any. */
  function IndexOf(s: string, c: char): (r: Option<nat>)
    ensures r.Some? ==> r.value < |s| && s[r.value] == c && c !in s[..r.value]
    ensures r.None? ==> c !in s
    decreases |s|
  {
    if |s| == 0 then None
    else if s[0] == c then Some(0)
    else match IndexOf(s[1..], c)
      case None => None
      case Some(i) => Some(i + 1)
  }
}

=== FILE: vector_log.dfy ===
/** The vector store as the repository sees it: an append-only log of
    (text, metadata) pairs that `add_texts` extends, and a similarity search
    whose ranking belongs to the vector library and is left uninterpreted.
    Embeddings, persistence and the distance measure are not modelled. */
module VectorLog {

  /** One stored document: its page content and its metadata. */
  datatype Entry<M> = Entry(text: string, metadata: M)

  type Log<M> = seq<Entry<M>>

  /** `similarity_search(query, k)`: some sequence of documents chosen by
      the library from the log. Nothing is assumed about which or in what
      order. */
  type Search<!M> = (Log<M>, string, nat) -> seq<Entry<M>>

  /** Pairs texts and metadatas index by index. */
  function Zip<M>(texts: seq<string>, metadatas: seq<M>): (r: Log<M>)
    requires |texts| == |metadatas|
    ensures |r| == |texts|
    ensures forall i :: 0 <= i < |r| ==> r[i] == Entry(texts[i], metadatas[i])
  {
    seq(|texts|, i requires 0 <= i < |texts| => Entry(texts[i], metadatas[i]))
  }

  /** `add_texts(texts, metadatas)`: the log grows by one entry per text,
      in order, and what was stored before is untouched. */
  function AddTexts<M>(log: Log<M>, texts: seq<string>, metadatas: seq<M>): (r: Log<M>)
    requires |texts| == |metadatas|
    ensures |r| == |log| + |texts|
    ensures r[..|log|] == log
    ensures forall i :: 0 <= i < |texts| ==> r[|log| + i] == Entry(texts[i], metadatas[i])
  {
    log + Zip(texts, metadatas)
  }

  /** Adding a batch in one call stores the same entries as adding its two
      halves one after the other. */
  lemma AddTextsInBatches<M>(log: Log<M>, t1: seq<string>, m1: seq<M>, t2: seq<string>, m2: seq<M>)
    requires |t1| == |m1| && |t2| == |m2|
    ensures AddTexts(AddTexts(log, t1, m1), t2, m2) == AddTexts(log, t1 + t2, m1 + m2)
  {
    var lhs := AddTexts(AddTexts(log, t1, m1), t2, m2);
    var rhs := AddTexts(log, t1 + t2, m1 + m2);
    assert |lhs| == |rhs|;
    forall i | 0 <= i < |lhs|
      ensures lhs[i] == rhs[i]
    {
      if i < |log| {
        assert lhs[i] == AddTexts(log, t1, m1)[i];
      } else if i < |log| + |t1| {
        assert lhs[i] == AddTexts(log, t1, m1)[i];
        assert lhs[i] == Entry(t1[i - |log|], m1[i - |log|]);
      } else {
        assert lhs[i] == Entry(t2[i - |log| - |t1|], m2[i - |log| - |t1|]);
      }
    }
  }

  /** Every document a search returned is one that was stored. This is a
      property of the vector library the model does not assume; lemmas that
      need it take it as a hypothesis. */
  predicate DrawnFrom<M(==)>(hits: seq<Entry<M>>, log: Log<M>) {
    forall i :: 0 <= i < |hits| ==> hits[i] in log
  }
}
